=== FILE: README.md ===
# oblq/i18n: locale resolution and translation, in Dafny

This project models the core of the Go package `i18n`. The package resolves a caller's
language from an HTTP request and renders localized, parameterised messages.

- **Locale extraction** (`getLocaleUnsafe`). A non-empty value from the optional
  `GetLocaleOverride` callback wins. Otherwise the configured HTTP lookup strategy is walked
  in order: header, cookie and query entries, each with a name. The first non-empty value
  ends the walk, and a nil request yields "".
- **Matching** (`MatchAvailableLanguageTag`, `GetLanguageTag`, `GetLocale`). The raw string
  is mapped onto one of the configured `Tags`. The result is `Tags[0]` when the string is
  empty or the matcher's index is out of range.
- **Tag derivation** (`parseLocalesToTags`). There is one tag per configured locale, in
  order. An empty list gives `[English]`.
- **Translation** (`T`, `AutoT`). If the locale is not loaded, its table is replaced by the
  default locale's table. A missing key comes back as itself. Otherwise the `Other`
  (plural) or `One` template is formatted with the parameters. A loaded locale whose table
  lacks the key yields the key: the default table is consulted only when the locale itself
  is not loaded (translate.go:13-17). `AutoT` returns the key for a nil request and
  otherwise translates in the request's resolved locale.
- **Setup** (`setup`). It derives `Tags` and the matcher. It then installs the
  localization table: files under `Path` take precedence, then the hard-coded `Locs`,
  and otherwise it fails.

The foreign collaborators are fields of a `Host` value, and every property is proved for
all choices of them:
- `language.Parse`, `language.ParseAcceptLanguage`, `language.NewMatcher` with
  `Matcher.Match`;
- `fmt.Sprintf`.

The matcher is a function from the desired tags to a `nat` index. The index is a `nat`
because the Go guard `len(Tags) > i` only checks the upper bound.

Loading localization files is a `Loader` parameter that returns a table or an error.
`LoadLocalizationFiles` is not part of this model.

A `%s`-only model of `fmt.Sprintf` (module `Fmt`) is used to state the scenarios of the
package's test file, i18n_test.go.

Modules:
- `Wrappers`: `Option` and `Result`.
- `Requests`: the request and the strategy entries.
- `Foreign`: `Tag` and `Host`.
- `Instance`: `Config`, `Localization`, `I18n`.
- `Locale`: locale.go.
- `Translate`: translate.go.
- `Setup`: i18n.go `setup`.
- `Fmt`: the Sprintf model.
- `Scenarios`: the tests.

Where the code and its tests disagree, the model follows the code:
- An empty `Locales` list is not itself an error: `parseLocalesToTags` substitutes
  `[English]`, and setup then succeeds or fails on the table source alone. One test
  expects an error for an empty list with a `Path` (i18n_test.go:51-56).
- The source files are from slightly different revisions of the API:
  - i18n.go stores `*Localization` values, while translate.go reads `Localization` values.
  - `AutoT` calls `.String()` on the string `GetLocale` returns.
  - The tests call a two-result `NewWithConfig` and `TP`/`AutoTP`.
  - The tests' hard-coded tables (i18n_test.go:27-36) map each key straight to a string,
    with the plural text under a separate `GEM.plural` key read through `TP`/`AutoTP`.
    The scenarios here use the `Localization{One, Other}` shape instead: the `GEM.plural`
    text becomes the `Other` template of `GEM` and is read with `plural` set.

  The model uses one coherent shape: value entries, with `AutoT` translating in the locale
  string `GetLocale` returns.

## Model

| member | source | states |
|---|---|---|
| Requests.LookupReadsSelectedPart | locale.go:26-35 | a strategy entry reads the value under its name in the header, cookies or query it selects, "" when that part lacks the name, and the other parts of the request play no role |
| Locale.FirstFound | locale.go:26-41 | the strategy walk yields "" exactly when no entry yields a value, and otherwise the value of the first entry that yields one |
| Locale.LaterEntriesCannotOverride | locale.go:38-40 | once an entry has yielded a value, entries after it cannot change the result (the `break`) |
| Locale.EmptyEntriesAreSkipped | locale.go:26-41 | leading entries that yield nothing do not affect the result |
| Locale.GetLocaleUnsafe | locale.go:16-44 | a nil request gives ""; a non-empty override value is the result; otherwise the result is "" exactly when no strategy entry yields, else the first entry's value |
| Locale.OverrideBypassesStrategy | locale.go:21-26 | when the override yields a value, the strategy is never consulted: any other strategy gives the same locale |
| Locale.MatchAvailableLanguageTag | locale.go:70-83 | the result is always a configured tag; `Tags[0]` for "" and for an out-of-range matcher index, `Tags[i]` for an in-range index `i` |
| Locale.EmptyLocaleIgnoresMatcher | locale.go:71-82 | the empty string resolves to the default without consulting the matcher |
| Locale.GetLanguageTag | locale.go:53-56 | the request's tag is the match of its raw locale, always a configured tag, the default for a nil request |
| Locale.GetLocale | locale.go:58-62 | the request's locale is the string of the tag its raw locale matches (`GetLanguageTag(r).String()`), so always the string of a configured tag, and the default for a nil request |
| Locale.ParseAll | locale.go:89-96 | the locales are parsed in order: success iff every one parses, with one tag per locale in the same order; otherwise the index of the first unparseable locale |
| Locale.ParseLocalesToTags | locale.go:88-105 | never empty on success; `[English]` for an empty list; one tag per locale in order otherwise; the first unparseable locale stops it (the `log.Fatal`) |
| Translate.T | translate.go:10-24 | a loaded locale with the key renders its `Other`/`One` template by `plural`; a loaded locale without the key gives the key; an unloaded locale uses the default table, and gives the key when that is missing or lacks the key |
| Translate.UnloadedLocaleTranslatesAsDefault | translate.go:13-15 | translating in a locale that is not loaded equals translating in the default locale |
| Translate.UnknownKeyIsReturned | translate.go:17-23 | a key no loaded table holds is returned unchanged, whatever the locale |
| Translate.TRendersSomeTemplateOrKey | translate.go:10-24 | every result is the key or the rendering of the key's template in some loaded table |
| Translate.AutoT | translate.go:30-37 | a nil request gives the key; otherwise the key is translated in the request's resolved locale, which is one of the configured tags |
| Setup.SetupInstance | i18n.go:113-125 | on success the tags are the parsed locales and the instance is valid; a non-empty `Path` installs the loaded table or returns the load error unchanged, ignoring `Locs`; otherwise `Locs` is installed, and without it the result is the missing-source error; the `GetLocaleOverride` callback is kept as given |
| Setup.PathTakesPrecedence | i18n.go:117-121 | with a non-empty `Path`, setup's tags, tables and errors are the same whatever `Locs` holds |
| Setup.ResolvedLocaleIsConfigured | i18n.go:114 | after a successful setup, every request resolves to the parsed form of some configured locale, or to "en" when none is configured |
| Fmt.Fill | translate.go:19-21 | verbs take arguments from the front, in order: the arguments left over are always a suffix of the inputs |
| Fmt.Extra | translate.go:19-21 | nothing is appended exactly when no argument is left over; otherwise the report has the form `%!(EXTRA …)` |
| Fmt.Sprintf | translate.go:19-21 | the rendered template is followed by the EXTRA report of some suffix of the arguments: only trailing arguments can go unused |
| Fmt.FillEscapedPercent | translate.go:19-21 | `%%` renders one literal percent and consumes no argument |
| Fmt.SprintfTrailingPercent | translate.go:19-21 | a lone trailing `%` renders as `%!(NOVERB)`, and arguments passed to such a template are reported as EXTRA |
| Fmt.FillLiteralPrefix | translate.go:19-21 | formatting copies a verb-free prefix unchanged and consumes no argument |
| Fmt.SprintfInterleaves | translate.go:19-21 | with as many arguments as `%s` verbs, each argument lands in its verb and nothing else is added |
| Fmt.SprintfNoVerbs | translate.go:19-21 | a template without verbs renders as itself, with the EXTRA report of unused arguments appended |
| Fmt.SprintfMissingArgument | translate.go:19-21 | a `%s` without an argument renders as `%!s(MISSING)` |
| Scenarios.AutoTranslateItalianScenario | i18n_test.go:205-226 | with Italian configured and a header asking for `it`, the GEM entry renders "Qualcosa è andato storto, riprova più tardi Marco" (singular) and the plural text, for any matcher, override and strategy |
| Scenarios.AutoTranslateByRequestScenario | translate.go:30-37 | with English and Italian configured, the test strategy and a matcher that resolves Italian to the second tag, a request asking for `it` in its header renders the Italian GEM text and a request carrying no locale renders the English one |
| Scenarios.TranslateByLocaleScenario | i18n_test.go:89-107 | with the English and Italian hard-coded tables, explicit-locale translation renders the English singular and plural texts the test expects, the Italian singular and plural texts too, and an unknown key comes back as itself |
| Scenarios.MissingSourceScenario | i18n_test.go:58-65 | a configuration with neither `Path` nor `Locs` fails setup with the missing-source error |
| Scenarios.CookieLocaleScenario | i18n_test.go:159-171 | with the test strategy and only a `lang` cookie, the raw locale is the cookie's value |

## Left out

- HTTP plumbing is not modelled: `Header.Get` key canonicalisation, multiple values per
  name, and URL parsing. Headers, cookies and query parameters are plain maps, and a
  missing name reads as "".
- The Go declarations of `HTTPLocalePosition` and `Config.HTTPLookUpStrategy` are missing
  from the source files, so their shape here (`Requests.LocalePosition` and
  `Config.strategy`) is the model's own choice. The strategy is used as given, and no
  default strategy is applied.
- The internals of `language.Parse`, `ParseAcceptLanguage`, `NewMatcher` and `Match` are a
  foreign library and are left uninterpreted. As a result, the weighted-matching
  behaviour ("it-CH" resolving to "it") is not stated.
- Locale.MatchAvailableLanguageTag: the matcher index is a `nat`. A negative index, which
  the Go guard would let through to a panic, is not represented.
- `fmt.Sprintf` is uninterpreted in `T`, and parameters are pre-stringified strings rather
  than `interface{}` values. The `Fmt` model covers `%s` and `%%`, a trailing lone `%`,
  missing arguments and extra arguments. Any other character after `%` is copied together
  with the `%` and consumes no argument. Go instead consumes the argument and either
  renders it (`%v`, `%q`, `%x`) or reports it as `%!c(string=…)` (`%d`, `%z`), and with no
  argument left reports `%!c(MISSING)`; flags and widths (`%5s`) are not parsed either.
- `LoadLocalizationFiles` and localizations.go are left out: directory walking, regex
  search and YAML/TOML/JSON decoding are I/O and foreign decoders. Loading is an opaque
  `Loader` result.
- `log.Fatal` and `log.Println` are left out. An unparseable locale is modelled as a
  `Failure` carrying its index rather than a process exit, and `AutoT`'s log line for a
  nil request is not modelled.
- Translate.T and the locale functions require `Valid` (at least one tag). Go would panic
  on `Tags[0]` before setup has run.
- The configuration-file constructors (`NewWithConfigFile`, `SpareConfig`) and the vendored
  `sprbox` library are left out. They are file reading and reflection-driven unmarshalling.
- file_server.go and middleware.go are left out: they are request dispatch and context
  plumbing around `GetLocale`.
- main.go, doc.go, example/main.go and localization_test.go are left out. They belong to
  other API revisions or are documentation and wiring.
- Concurrency is left out: the instance is read-only after setup.

=== FILE: fmt.dfy ===
/** A model of `fmt.Sprintf` for templates whose verbs are `%s` with string
    arguments: enough to render the package's localization templates. */
module Fmt {

  /** The template holds no verb at all. */
  predicate NoVerbs(s: string)
  {
    '%' !in s
  }

  /** What Go renders for a `%s` verb that has no argument left. */
  const MissingString: string := "%!s(MISSING)"

  /** Renders `t` from the front, taking one argument per `%s`. Returns the
      text and the arguments left over. As in Go, `%%` is a literal percent,
      a missing argument renders as `%!s(MISSING)` and a trailing lone `%`
      as `%!(NOVERB)`. Any other verb character is copied unchanged. */
  function Fill(t: string, args: seq<string>): (out: (string, seq<string>))
    ensures |out.1| <= |args|
    ensures out.1 == args[|args| - |out.1|..]
    decreases |t|
  {
    if |t| == 0 then ("", args)
    else if t[0] != '%' then
      var rest := Fill(t[1..], args);
      ([t[0]] + rest.0, rest.1)
    else if |t| == 1 then ("%!(NOVERB)", args)
    else if t[1] == '%' then
      var rest := Fill(t[2..], args);
      ("%" + rest.0, rest.1)
    else if t[1] == 's' then
      if |args| > 0 then
        var rest := Fill(t[2..], args[1..]);
        assert args[1..][|args[1..]| - |rest.1|..] == args[|args| - |rest.1|..];
        (args[0] + rest.0, rest.1)
      else
        var rest := Fill(t[2..], args);
        (MissingString + rest.0, rest.1)
    else
      var rest := Fill(t[2..], args);
      (t[..2] + rest.0, rest.1)
  }

  /** The `, string=v` list Go appends for unused arguments. */
  function ExtraList(args: seq<string>): string
    decreases |args|
  {
    if |args| == 0 then ""
    else if |args| == 1 then "string=" + args[0]
    else "string=" + args[0] + ", " + ExtraList(args[1..])
  }

  /** `%!(EXTRA string=a, string=b)` for unused arguments, nothing otherwise. */
  function Extra(args: seq<string>): (s: string)
    ensures args == [] <==> s == ""
    ensures args != [] ==> |s| > 9 && s[..9] == "%!(EXTRA " && s[|s| - 1] == ')'
  {
    if |args| == 0 then "" else "%!(EXTRA " + ExtraList(args) + ")"
  }

  /** fmt.Sprintf over string arguments: the rendered template followed by
      the EXTRA report, which names the trailing arguments no verb took. */
  function Sprintf(t: string, args: seq<string>): (s: string)
    ensures exists k :: 0 <= k <= |args| && s == Fill(t, args).0 + Extra(args[k..])
  {
    var out := Fill(t, args);
    assert out.1 == args[|args| - |out.1|..];
    out.0 + Extra(out.1)
  }

  /** A verb-free prefix is copied unchanged and consumes no argument. */
  lemma {:induction false} FillLiteralPrefix(p: string, t: string, args: seq<string>)
    requires NoVerbs(p)
    ensures Fill(p + t, args) == (p + Fill(t, args).0, Fill(t, args).1)
    decreases |p|
  {
    if |p| > 0 {
      assert (p + t)[0] == p[0];
      assert (p + t)[1..] == p[1..] + t;
      assert p[0] != '%';
      FillLiteralPrefix(p[1..], t, args);
      assert [p[0]] + (p[1..] + Fill(t, args).0) == p + Fill(t, args).0;
    } else {
      assert p == [];
      assert p + t == t;
      assert p + Fill(t, args).0 == Fill(t, args).0;
    }
  }

  /** The template made of `pieces` separated by `%s`. */
  function JoinVerbs(pieces: seq<string>): string
    requires |pieces| > 0
    decreases |pieces|
  {
    if |pieces| == 1 then pieces[0] else pieces[0] + "%s" + JoinVerbs(pieces[1..])
  }

  /** The pieces with the arguments placed between them: what substitution
      is meant to produce when every verb has its argument. */
  function Interleave(pieces: seq<string>, args: seq<string>): string
    requires |pieces| == |args| + 1
    decreases |args|
  {
    if |args| == 0 then pieces[0] else pieces[0] + args[0] + Interleave(pieces[1..], args[1..])
  }

  /** With as many arguments as `%s` verbs, each argument lands in its verb
      and nothing is left over. */
  lemma {:induction false} FillInterleaves(pieces: seq<string>, args: seq<string>)
    requires |pieces| == |args| + 1
    requires forall i :: 0 <= i < |pieces| ==> NoVerbs(pieces[i])
    ensures Fill(JoinVerbs(pieces), args) == (Interleave(pieces, args), [])
    decreases |args|
  {
    if |args| == 0 {
      FillLiteralPrefix(pieces[0], "", args);
      assert pieces[0] + "" == pieces[0];
    } else {
      var tail := JoinVerbs(pieces[1..]);
      var inner := Interleave(pieces[1..], args[1..]);
      FillInterleaves(pieces[1..], args[1..]);
      assert Fill(tail, args[1..]) == (inner, []);
      var verb := "%s" + tail;
      assert JoinVerbs(pieces) == pieces[0] + verb;
      assert verb[0] == '%' && verb[1] == 's' && |verb| > 1;
      assert verb[2..] == tail;
      assert Fill(verb, args) == (args[0] + inner, []);
      FillLiteralPrefix(pieces[0], verb, args);
      assert Interleave(pieces, args) == pieces[0] + args[0] + inner;
      assert pieces[0] + (args[0] + inner) == pieces[0] + args[0] + inner;
    }
  }

  /** Sprintf places each argument in its `%s` verb when the counts agree. */
  lemma SprintfInterleaves(pieces: seq<string>, args: seq<string>)
    requires |pieces| == |args| + 1
    requires forall i :: 0 <= i < |pieces| ==> NoVerbs(pieces[i])
    ensures Sprintf(JoinVerbs(pieces), args) == Interleave(pieces, args)
  {
    FillInterleaves(pieces, args);
  }

  /** A template without verbs renders as itself, followed by the EXTRA
      report of any argument passed to it. */
  lemma SprintfNoVerbs(t: string, args: seq<string>)
    requires NoVerbs(t)
    ensures Sprintf(t, args) == t + Extra(args)
  {
    FillLiteralPrefix(t, "", args);
    assert t + "" == t;
  }

  /** A template ending in its only verb, given no argument, reports the
      missing argument in place of the verb. */
  lemma SprintfMissingArgument(p: string)
    requires NoVerbs(p)
    ensures Sprintf(p + "%s", []) == p + MissingString
  {
    var none: seq<string> := [];
    var verb := "%s";
    assert Fill(verb, none) == (MissingString, none) by {
      assert verb[0] == '%' && verb[1] == 's' && |verb| == 2;
      assert verb[2..] == "";
      assert MissingString + "" == MissingString;
    }
    FillLiteralPrefix(p, verb, none);
    assert Fill(p + verb, none) == (p + MissingString, none);
  }

  /** `%%` renders one literal percent and consumes no argument. */
  lemma FillEscapedPercent(p: string, t: string, args: seq<string>)
    requires NoVerbs(p)
    ensures Fill(p + "%%" + t, args) == (p + "%" + Fill(t, args).0, Fill(t, args).1)
  {
    var esc := "%%" + t;
    assert Fill(esc, args) == ("%" + Fill(t, args).0, Fill(t, args).1) by {
      assert esc[0] == '%' && esc[1] == '%' && |esc| > 1;
      assert esc[2..] == t;
    }
    FillLiteralPrefix(p, esc, args);
    assert p + "%%" + t == p + esc;
    assert p + ("%" + Fill(t, args).0) == p + "%" + Fill(t, args).0;
  }

  /** A template ending in a lone `%` reports `%!(NOVERB)` there, and any
      argument passed to it is reported as EXTRA. */
  lemma SprintfTrailingPercent(p: string, args: seq<string>)
    requires NoVerbs(p)
    ensures Sprintf(p + "%", args) == p + "%!(NOVERB)" + Extra(args)
  {
    var pct := "%";
    assert Fill(pct, args) == ("%!(NOVERB)", args) by {
      assert pct[0] == '%' && |pct| == 1;
    }
    FillLiteralPrefix(p, pct, args);
  }
}

=== FILE: foreign.dfy ===
/** The functions of `golang.org/x/text/language` and `fmt` that the package
    calls, kept uninterpreted: the model is proved for every choice of them. */
module Foreign {
  import opened Wrappers

  /** A parsed language tag, identified by its canonical `String()` form. */
  datatype Tag = Tag(canonical: string) {
    function String(): string
    {
      canonical
    }
  }

  /** `language.English`, the built-in default. */
  const English: Tag := Tag("en")

  /** A matcher built over the supported tags: given the desired tags it
      returns the index of the supported tag it chose (the second result of
      `Matcher.Match`). */
  type Matcher = seq<Tag> -> nat

  /** The foreign collaborators.
      - `parse`: `language.Parse`, `None` when it returns an error;
      - `parseAcceptLanguage`: the tags of `language.ParseAcceptLanguage`,
        whose error is ignored by the caller;
      - `newMatcher`: `language.NewMatcher`;
      - `sprintf`: `fmt.Sprintf`, with the arguments given already as strings. */
  datatype Host = Host(
    parse: string -> Option<Tag>,
    parseAcceptLanguage: string -> seq<Tag>,
    newMatcher: seq<Tag> -> Matcher,
    sprintf: (string, seq<string>) -> string)
}

=== FILE: instance.dfy ===
/** The data shapes of the package: the configuration, a localization entry
    and the I18n instance. */
module Instance {
  import opened Wrappers
  import opened Requests
  import opened Foreign

  /** A key's singular (`One`) and plural (`Other`) format templates. */
  datatype Localization = Localization(one: string, other: string)

  /** locale -> key -> Localization. */
  type Table = map<string, map<string, Localization>>

  /** The configuration.
      - `locales`: supported locales, most preferred first; the first is the default;
      - `path`: where localization files are loaded from ("" when unset);
      - `locs`: hard-coded localizations (`None` for a nil map);
      - `strategy`: the ordered HTTP lookup strategy. */
  datatype Config = Config(
    locales: seq<string>,
    path: string,
    locs: Option<Table>,
    strategy: seq<LocalePosition>)

  /** An I18n instance. `override` is `GetLocaleOverride` (`None` for nil);
      `tags`, `matcher` and `localizations` are filled in by setup; `host`
      holds the foreign functions the instance calls. */
  datatype I18n = I18n(
    config: Config,
    override: Option<Request -> string>,
    tags: seq<Tag>,
    matcher: Matcher,
    localizations: Table,
    host: Host)

  /** What setup guarantees and every lookup relies on: `Tags[0]` exists. */
  predicate Valid(inst: I18n)
  {
    |inst.tags| > 0
  }

  /** The default locale: `Tags[0].String()`. */
  function DefaultLocale(inst: I18n): string
    requires Valid(inst)
  {
    inst.tags[0].String()
  }
}

=== FILE: locale.dfy ===
/** Locale extraction from a request and matching against the supported tags. */
module Locale {
  import opened Wrappers
  import opened Requests
  import opened Foreign
  import opened Instance

  /** No entry of the strategy yields a value for the request. */
  predicate NoneFound(r: Request, strategy: seq<LocalePosition>)
  {
    forall k :: 0 <= k < |strategy| ==> Lookup(r, strategy[k]) == ""
  }

  /** Entry `k` is the first entry of the strategy that yields a value. */
  predicate FirstHit(r: Request, strategy: seq<LocalePosition>, k: int)
  {
    && 0 <= k < |strategy|
    && Lookup(r, strategy[k]) != ""
    && NoneFound(r, strategy[..k])
  }

  /** The strategy walk: entries are tried in order and the first non-empty
      value ends the search; "" when no entry yields anything. */
  function FirstFound(r: Request, strategy: seq<LocalePosition>): (locale: string)
    ensures locale == "" <==> NoneFound(r, strategy)
    ensures forall k :: FirstHit(r, strategy, k) ==> locale == Lookup(r, strategy[k])
    decreases |strategy|
  {
    if |strategy| == 0 then ""
    else if Lookup(r, strategy[0]) != "" then
      assert forall k :: 0 < k < |strategy| ==> strategy[..k][0] == strategy[0];
      Lookup(r, strategy[0])
    else
      var rest := FirstFound(r, strategy[1..]);
      assert forall k :: FirstHit(r, strategy, k) && k > 0 ==> FirstHit(r, strategy[1..], k - 1) by {
        forall k | FirstHit(r, strategy, k) && k > 0
          ensures FirstHit(r, strategy[1..], k - 1)
        {
          assert strategy[1..][..k - 1] == strategy[..k][1..];
        }
      }
      rest
  }

  /** Once an entry yields a value, entries appended after the strategy
      cannot change the result. */
  lemma {:induction false} LaterEntriesCannotOverride(r: Request, s: seq<LocalePosition>, t: seq<LocalePosition>)
    requires FirstFound(r, s) != ""
    ensures FirstFound(r, s + t) == FirstFound(r, s)
    decreases |s|
  {
    assert (s + t)[0] == s[0];
    if Lookup(r, s[0]) == "" {
      assert (s + t)[1..] == s[1..] + t;
      LaterEntriesCannotOverride(r, s[1..], t);
    }
  }

  /** Entries that yield nothing can be dropped from the front of the strategy. */
  lemma {:induction false} EmptyEntriesAreSkipped(r: Request, s: seq<LocalePosition>, t: seq<LocalePosition>)
    requires NoneFound(r, s)
    ensures FirstFound(r, s + t) == FirstFound(r, t)
    decreases |s|
  {
    if |s| > 0 {
      assert (s + t)[0] == s[0];
      assert Lookup(r, s[0]) == "";
      assert (s + t)[1..] == s[1..] + t;
      EmptyEntriesAreSkipped(r, s[1..], t);
    } else {
      assert s + t == t;
    }
  }

  /** What the override callback gives for a request ("" when it is nil). */
  function OverrideValue(inst: I18n, r: Request): string
  {
    match inst.override
    case None => ""
    case Some(f) => f(r)
  }

  /** getLocaleUnsafe: the raw locale of a request (`None` for a nil
      request). A non-empty override value wins; otherwise the configured
      strategy decides. */
  function GetLocaleUnsafe(inst: I18n, r: Option<Request>): (locale: string)
    ensures r.None? ==> locale == ""
    ensures r.Some? && OverrideValue(inst, r.value) != "" ==> locale == OverrideValue(inst, r.value)
    ensures r.Some? && OverrideValue(inst, r.value) == "" ==>
      (locale == "" <==> NoneFound(r.value, inst.config.strategy))
    ensures r.Some? && OverrideValue(inst, r.value) == "" ==>
      forall k :: FirstHit(r.value, inst.config.strategy, k) ==> locale == Lookup(r.value, inst.config.strategy[k])
  {
    match r
    case None => ""
    case Some(req) =>
      var fromOverride := OverrideValue(inst, req);
      if |fromOverride| > 0 then fromOverride else FirstFound(req, inst.config.strategy)
  }

  /** A non-empty override value makes the strategy irrelevant: any other
      strategy gives the same raw locale. */
  lemma OverrideBypassesStrategy(inst: I18n, r: Request, strategy: seq<LocalePosition>)
    requires OverrideValue(inst, r) != ""
    ensures GetLocaleUnsafe(inst.(config := inst.config.(strategy := strategy)), Some(r))
         == GetLocaleUnsafe(inst, Some(r))
  {
  }

  /** The index the matcher picks for a raw locale string. */
  function MatchIndex(inst: I18n, locale: string): nat
  {
    inst.matcher(inst.host.parseAcceptLanguage(locale))
  }

  /** MatchAvailableLanguageTag: always one of the configured tags; the
      default for an empty string or an out-of-range index, without
      consulting the matcher in the empty case. */
  function MatchAvailableLanguageTag(inst: I18n, locale: string): (tag: Tag)
    requires Valid(inst)
    ensures tag in inst.tags
    ensures locale == "" ==> tag == inst.tags[0]
    ensures locale != "" && MatchIndex(inst, locale) < |inst.tags| ==> tag == inst.tags[MatchIndex(inst, locale)]
    ensures locale != "" && MatchIndex(inst, locale) >= |inst.tags| ==> tag == inst.tags[0]
  {
    if |locale| > 0 then
      var i := MatchIndex(inst, locale);
      if |inst.tags| > i then inst.tags[i] else inst.tags[0]
    else
      inst.tags[0]
  }

  /** The empty locale resolves to the default whatever the matcher is. */
  lemma EmptyLocaleIgnoresMatcher(inst: I18n, m: Matcher)
    requires Valid(inst)
    ensures MatchAvailableLanguageTag(inst.(matcher := m), "") == MatchAvailableLanguageTag(inst, "")
  {
  }

  /** GetLanguageTag: the matched tag of the request's raw locale. */
  function GetLanguageTag(inst: I18n, r: Option<Request>): (tag: Tag)
    requires Valid(inst)
    ensures tag in inst.tags
    ensures r.None? ==> tag == inst.tags[0]
    ensures tag == MatchAvailableLanguageTag(inst, GetLocaleUnsafe(inst, r))
  {
    MatchAvailableLanguageTag(inst, GetLocaleUnsafe(inst, r))
  }

  /** GetLocale: the request's locale, the string of the tag its raw locale
      matches, and so always the string of a configured tag. */
  function GetLocale(inst: I18n, r: Option<Request>): (locale: string)
    requires Valid(inst)
    ensures locale == MatchAvailableLanguageTag(inst, GetLocaleUnsafe(inst, r)).String()
    ensures exists i :: 0 <= i < |inst.tags| && locale == inst.tags[i].String()
    ensures r.None? ==> locale == DefaultLocale(inst)
  {
    GetLanguageTag(inst, r).String()
  }

  /** Every locale in the list parses; `Failure(i)` names the first one that
      does not. On success the tags are the parsed locales, in order. */
  function ParseAll(parse: string -> Option<Tag>, locales: seq<string>): (r: Result<seq<Tag>, nat>)
    ensures r.Success? <==> forall i :: 0 <= i < |locales| ==> parse(locales[i]).Some?
    ensures r.Success? ==> |r.value| == |locales|
    ensures r.Success? ==> forall i :: 0 <= i < |locales| ==> parse(locales[i]) == Some(r.value[i])
    ensures r.Failure? ==> r.error < |locales| && parse(locales[r.error]).None?
    ensures r.Failure? ==> forall j :: 0 <= j < r.error ==> parse(locales[j]).Some?
    decreases |locales|
  {
    if |locales| == 0 then Success([])
    else
      match parse(locales[0])
      case None => Failure(0)
      case Some(tag) =>
        match ParseAll(parse, locales[1..])
        case Failure(i) => Failure(i + 1)
        case Success(rest) => Success([tag] + rest)
  }

  /** parseLocalesToTags: one tag per locale in order, `[English]` for an
      empty list, never empty. `Failure(i)` stands for the `log.Fatal` on
      the first unparseable locale `locales[i]`. */
  function ParseLocalesToTags(parse: string -> Option<Tag>, locales: seq<string>): (r: Result<seq<Tag>, nat>)
    ensures r.Success? ==> |r.value| > 0
    ensures locales == [] ==> r == Success([English])
    ensures r.Success? <==> forall i :: 0 <= i < |locales| ==> parse(locales[i]).Some?
    ensures r.Success? && locales != [] ==>
      |r.value| == |locales| && forall i :: 0 <= i < |locales| ==> parse(locales[i]) == Some(r.value[i])
    ensures r.Failure? ==> r.error < |locales| && parse(locales[r.error]).None?
    ensures r.Failure? ==> forall j :: 0 <= j < r.error ==> parse(locales[j]).Some?
  {
    match ParseAll(parse, locales)
    case Failure(i) => Failure(i)
    case Success(tags) => if |tags| == 0 then Success([English]) else Success(tags)
  }
}

=== FILE: requests.dfy ===
/** The parts of an HTTP request the locale lookup reads, and the lookup
    strategy entries that say where to read. */
module Requests {

  /** Header values, cookie values and query parameters, each keyed by name.
      Header keys are taken as already canonical. */
  datatype Request = Request(
    header: map<string, string>,
    cookies: map<string, string>,
    query: map<string, string>)

  /** Where a strategy entry looks: the three cases of the lookup switch. */
  datatype PositionId = HeaderId | CookieId | QueryId

  /** One entry of the HTTP lookup strategy: a source and the name to read there. */
  datatype LocalePosition = LocalePosition(id: PositionId, key: string)

  /** A missing name reads as the empty string: `Header.Get` and
      `URL.Query().Get` return "" and a failed `Request.Cookie` leaves the
      locale untouched, which is still "" at that point. */
  function Get(m: map<string, string>, key: string): string
  {
    if key in m then m[key] else ""
  }

  /** The part of the request a source reads. */
  function Part(r: Request, id: PositionId): map<string, string>
  {
    match id
    case HeaderId => r.header
    case CookieId => r.cookies
    case QueryId => r.query
  }

  /** The value one strategy entry yields for a request. */
  function Lookup(r: Request, p: LocalePosition): string
  {
    match p.id
    case HeaderId => Get(r.header, p.key)
    case CookieId => Get(r.cookies, p.key)
    case QueryId => Get(r.query, p.key)
  }

  /** A strategy entry reads the value under its name in the part of the
      request it selects, and "" when that part lacks the name; the other
      parts play no role. */
  lemma LookupReadsSelectedPart(r: Request, p: LocalePosition, other: Request)
    requires Part(other, p.id) == Part(r, p.id)
    ensures p.key in Part(r, p.id) ==> Lookup(r, p) == Part(r, p.id)[p.key]
    ensures p.key !in Part(r, p.id) ==> Lookup(r, p) == ""
    ensures Lookup(other, p) == Lookup(r, p)
  {
  }
}

=== FILE: scenarios.dfy ===
/** The scenarios of the package's test file i18n_test.go, proved for every choice of the foreign
    matcher and loader. */
module Scenarios {
  import opened Wrappers
  import opened Requests
  import opened Foreign
  import opened Instance
  import opened Locale
  import opened Translate
  import opened Setup
  import opened Fmt

  const GEM: string := "GEM"
  const Marco: string := "Marco"

  const EnLater: string := "please try again later "
  const ItLater: string := "riprova più tardi "
  const EnOne: string := "Something went wrong, " + EnLater
  const EnOther: string := "Some things went wrong, " + EnLater
  const ItOne: string := "Qualcosa è andato storto, " + ItLater
  const ItOther: string := "Alcune cose sono andate storte, " + ItLater

  /** The tests' hard-coded English and Italian texts, reshaped into
      `Localization` entries: the test keeps the plural text under a separate
      `GEM.plural` key, here it is the `other` template of `GEM`. Each
      template ends in one `%s`. */
  function HardcodedLocs(): Table
  {
    map[
      "en" := map[GEM := Localization(EnOne + "%s", EnOther + "%s")],
      "it" := map[GEM := Localization(ItOne + "%s", ItOther + "%s")]]
  }

  /** The test's lookup strategy: header, then cookie, then query. */
  const TestStrategy: seq<LocalePosition> :=
    [LocalePosition(HeaderId, "Accept-Language"), LocalePosition(CookieId, "lang"), LocalePosition(QueryId, "lang")]

  /** The host with the given language functions and the Sprintf model. */
  function TestHost(parse: string -> Option<Tag>, pal: string -> seq<Tag>, nm: seq<Tag> -> Matcher): Host
  {
    Host(parse, pal, nm, Sprintf)
  }

  // Literal facts about the test texts. Each lemma below states one fact
  // about specific string constants and exists only because the verifier
  // does not settle long string literals within a larger proof; the
  // scenario lemmas call them instead of restating the literals inline.

  /** None of the test templates' literal parts holds a verb. */
  lemma LiteralPartsHaveNoVerbs()
    ensures NoVerbs(EnOne) && NoVerbs(EnOther) && NoVerbs(ItOne) && NoVerbs(ItOther)
  {
    assert NoVerbs(EnLater) && NoVerbs(ItLater);
    assert NoVerbs("Something went wrong, ");
    assert NoVerbs("Some things went wrong, ");
    assert NoVerbs("Qualcosa è andato storto, ");
    assert NoVerbs("Alcune cose sono andate storte, ");
  }

  /** The texts the tests expect, spelled out, one constant per lemma. */
  lemma ExpectedTexts()
    ensures EnOne + Marco == "Something went wrong, please try again later Marco"
    ensures EnOther + Marco == "Some things went wrong, please try again later Marco"
    ensures ItOne + Marco == "Qualcosa è andato storto, riprova più tardi Marco"
    ensures ItOther + Marco == "Alcune cose sono andate storte, riprova più tardi Marco"
  {
    ExpectedEnOne();
    ExpectedEnOther();
    ExpectedItOne();
    ExpectedItOther();
  }

  lemma ExpectedEnOne()
    ensures EnOne + Marco == "Something went wrong, please try again later Marco"
  {
  }
  lemma ExpectedEnOther()
    ensures EnOther + Marco == "Some things went wrong, please try again later Marco"
  {
  }
  lemma ExpectedItOne()
    ensures ItOne + Marco == "Qualcosa è andato storto, riprova più tardi Marco"
  {
  }
  lemma ExpectedItOther()
    ensures ItOther + Marco == "Alcune cose sono andate storte, riprova più tardi Marco"
  {
  }

  /** A template ending in its only verb, rendered with one argument. */
  lemma SprintfTrailingVerb(p: string, arg: string)
    requires NoVerbs(p)
    ensures Sprintf(p + "%s", [arg]) == p + arg
  {
    assert JoinVerbs([p, ""]) == p + "%s" + "";
    assert p + "%s" + "" == p + "%s";
    SprintfInterleaves([p, ""], [arg]);
    assert Interleave([p, ""], [arg]) == p + arg + "";
  }

  /** An entry whose templates each end in their only verb renders, with
      one argument, as the template's literal part followed by the argument. */
  lemma RendersTrailingVerb(inst: I18n, locale: string, key: string, one: string, other: string, arg: string)
    requires Valid(inst) && inst.host.sprintf == Sprintf
    requires locale in inst.localizations && key in inst.localizations[locale]
    requires inst.localizations[locale][key] == Localization(one + "%s", other + "%s")
    requires NoVerbs(one) && NoVerbs(other)
    ensures T(inst, locale, false, key, [arg]) == one + arg
    ensures T(inst, locale, true, key, [arg]) == other + arg
  {
    SprintfTrailingVerb(one, arg);
    SprintfTrailingVerb(other, arg);
  }

  /** Setup over the hard-coded tables installs exactly the parsed tags
      and those tables. */
  lemma {:induction false} HardcodedSetup(
    locales: seq<string>, tags: seq<Tag>, host: Host, override: Option<Request -> string>,
    strategy: seq<LocalePosition>, load: Loader)
    requires |locales| == |tags| > 0
    requires forall i :: 0 <= i < |locales| ==> host.parse(locales[i]) == Some(tags[i])
    ensures var r := SetupInstance(Config(locales, "", Some(HardcodedLocs()), strategy), override, host, load);
      r.Success? && r.value.tags == tags && r.value.localizations == HardcodedLocs() && r.value.host == host
  {
    var p := ParseLocalesToTags(host.parse, locales);
    assert p.Success? && |p.value| == |tags|;
    assert forall i :: 0 <= i < |tags| ==> p.value[i] == tags[i];
    assert p.value == tags;
  }

  /** With only Italian configured and the hard-coded tables, a request
      asking for Italian in its header renders the Italian singular GEM
      entry, and the plural one when asked. The matcher, override and
      strategy do not matter: every resolution lands on the only tag. */
  lemma AutoTranslateItalianScenario(
    parse: string -> Option<Tag>, pal: string -> seq<Tag>, nm: seq<Tag> -> Matcher,
    override: Option<Request -> string>, strategy: seq<LocalePosition>, load: Loader)
    requires parse("it") == Some(Tag("it"))
    ensures var r := SetupInstance(Config(["it"], "", Some(HardcodedLocs()), strategy), override, TestHost(parse, pal, nm), load);
      var req := Some(Request(map["Accept-Language" := "it"], map[], map[]));
      && r.Success?
      && AutoT(r.value, req, false, GEM, [Marco]) == "Qualcosa è andato storto, riprova più tardi Marco"
      && AutoT(r.value, req, true, GEM, [Marco]) == "Alcune cose sono andate storte, riprova più tardi Marco"
  {
    var host := TestHost(parse, pal, nm);
    HardcodedSetup(["it"], [Tag("it")], host, override, strategy, load);
    var inst := SetupInstance(Config(["it"], "", Some(HardcodedLocs()), strategy), override, host, load).value;
    var req := Some(Request(map["Accept-Language" := "it"], map[], map[]));
    assert GetLocale(inst, req) == "it";
    var table := inst.localizations["it"];
    assert table == map[GEM := Localization(ItOne + "%s", ItOther + "%s")];
    LiteralPartsHaveNoVerbs();
    RendersTrailingVerb(inst, "it", GEM, ItOne, ItOther, Marco);
    ExpectedTexts();
  }

  /** With English and Italian configured, the test strategy and no
      override, the request decides the language: a header asking for
      Italian, which the matcher resolves to the second tag, renders the
      Italian GEM entry, and a request carrying no locale renders the
      English default. */
  lemma AutoTranslateByRequestScenario(
    parse: string -> Option<Tag>, pal: string -> seq<Tag>, nm: seq<Tag> -> Matcher, load: Loader)
    requires parse("en") == Some(Tag("en")) && parse("it") == Some(Tag("it"))
    requires nm([Tag("en"), Tag("it")])(pal("it")) == 1
    ensures var r := SetupInstance(Config(["en", "it"], "", Some(HardcodedLocs()), TestStrategy), None, TestHost(parse, pal, nm), load);
      var asksItalian := Some(Request(map["Accept-Language" := "it"], map[], map[]));
      var asksNothing := Some(Request(map[], map[], map[]));
      && r.Success?
      && AutoT(r.value, asksItalian, false, GEM, [Marco]) == "Qualcosa è andato storto, riprova più tardi Marco"
      && AutoT(r.value, asksNothing, false, GEM, [Marco]) == "Something went wrong, please try again later Marco"
  {
    var host := TestHost(parse, pal, nm);
    var tags := [Tag("en"), Tag("it")];
    HardcodedSetup(["en", "it"], tags, host, None, TestStrategy, load);
    var inst := SetupInstance(Config(["en", "it"], "", Some(HardcodedLocs()), TestStrategy), None, host, load).value;
    var it := Request(map["Accept-Language" := "it"], map[], map[]);
    var none := Request(map[], map[], map[]);
    assert FirstHit(it, TestStrategy, 0) by {
      assert TestStrategy[..0] == [];
    }
    assert GetLocaleUnsafe(inst, Some(it)) == "it";
    assert MatchIndex(inst, "it") == 1;
    assert GetLocale(inst, Some(it)) == "it";
    assert NoneFound(none, TestStrategy);
    assert GetLocale(inst, Some(none)) == "en";
    assert inst.localizations["en"] == map[GEM := Localization(EnOne + "%s", EnOther + "%s")];
    assert inst.localizations["it"] == map[GEM := Localization(ItOne + "%s", ItOther + "%s")];
    LiteralPartsHaveNoVerbs();
    RendersTrailingVerb(inst, "it", GEM, ItOne, ItOther, Marco);
    RendersTrailingVerb(inst, "en", GEM, EnOne, EnOther, Marco);
    ExpectedTexts();
  }

  /** With English and Italian configured and the hard-coded tables,
      translating by explicit locale renders each locale's templates, and
      an unknown key comes back as itself. */
  lemma TranslateByLocaleScenario(
    parse: string -> Option<Tag>, pal: string -> seq<Tag>, nm: seq<Tag> -> Matcher,
    override: Option<Request -> string>, load: Loader)
    requires parse("en") == Some(Tag("en")) && parse("it") == Some(Tag("it"))
    ensures var r := SetupInstance(Config(["en", "it"], "", Some(HardcodedLocs()), []), override, TestHost(parse, pal, nm), load);
      && r.Success?
      && T(r.value, "en", false, GEM, [Marco]) == "Something went wrong, please try again later Marco"
      && T(r.value, "en", true, GEM, [Marco]) == "Some things went wrong, please try again later Marco"
      && T(r.value, "it", false, GEM, [Marco]) == "Qualcosa è andato storto, riprova più tardi Marco"
      && T(r.value, "it", true, GEM, [Marco]) == "Alcune cose sono andate storte, riprova più tardi Marco"
      && T(r.value, "it", false, "NO_SUCH_KEY", [Marco]) == "NO_SUCH_KEY"
  {
    var host := TestHost(parse, pal, nm);
    var locales := ["en", "it"];
    HardcodedSetup(locales, [Tag("en"), Tag("it")], host, override, [], load);
    var inst := SetupInstance(Config(locales, "", Some(HardcodedLocs()), []), override, host, load).value;
    assert inst.localizations["en"] == map[GEM := Localization(EnOne + "%s", EnOther + "%s")];
    assert inst.localizations["it"] == map[GEM := Localization(ItOne + "%s", ItOther + "%s")];
    LiteralPartsHaveNoVerbs();
    RendersTrailingVerb(inst, "en", GEM, EnOne, EnOther, Marco);
    RendersTrailingVerb(inst, "it", GEM, ItOne, ItOther, Marco);
    assert "NO_SUCH_KEY" != GEM;
    ExpectedTexts();
  }

  /** Neither a path nor hard-coded tables: setup fails. */
  lemma MissingSourceScenario(host: Host, override: Option<Request -> string>, load: Loader)
    requires host.parse("en") == Some(Tag("en")) && host.parse("it") == Some(Tag("it"))
    ensures var r := SetupInstance(Config(["en", "it"], "", None, []), override, host, load);
      r.Failure? && r.error == MissingSource
  {
    var locales := ["en", "it"];
    assert locales[0] == "en" && locales[1] == "it";
    assert ParseLocalesToTags(host.parse, locales).Success?;
  }

  /** With the test strategy, a request that only carries a `lang` cookie
      yields that cookie's value as its raw locale. */
  lemma CookieLocaleScenario(inst: I18n)
    requires inst.override.None? && inst.config.strategy == TestStrategy
    ensures GetLocaleUnsafe(inst, Some(Request(map[], map["lang" := "it"], map[]))) == "it"
  {
    var req := Request(map[], map["lang" := "it"], map[]);
    assert FirstHit(req, TestStrategy, 1) by {
      assert TestStrategy[..1] == [LocalePosition(HeaderId, "Accept-Language")];
    }
  }
}

=== FILE: setup.dfy ===
/** Setup of an instance from its configuration. */
module Setup {
  import opened Wrappers
  import opened Requests
  import opened Foreign
  import opened Instance
  import opened Locale

  /** Why setup does not produce an instance.
      - `UnparseableLocale(i)`: `locales[i]` does not parse (the process
        exits through `log.Fatal`);
      - `LoadFailed(e)`: loading the files under `path` failed with `e`;
      - `MissingSource`: neither `path` nor `locs` was given. */
  datatype SetupError = UnparseableLocale(index: nat) | LoadFailed(cause: string) | MissingSource

  /** Loading localization files from a path, one file per tag. */
  type Loader = (string, seq<Tag>) -> Result<Table, string>

  /** setup: derives the tags and their matcher from the configured locales,
      then installs the table: loaded from `path` when it is set (`locs` is
      then ignored), else `locs`, else an error. */
  function SetupInstance(config: Config, override: Option<Request -> string>, host: Host, load: Loader)
    : (r: Result<I18n, SetupError>)
    ensures r.Success? ==> Valid(r.value) && r.value.config == config && r.value.host == host
    ensures r.Success? ==> r.value.override == override
    ensures r.Success? ==> Success(r.value.tags) == ParseLocalesToTags(host.parse, config.locales)
    ensures r.Success? ==> r.value.matcher == host.newMatcher(r.value.tags)
    ensures ParseLocalesToTags(host.parse, config.locales).Failure? <==> r.Failure? && r.error.UnparseableLocale?
    ensures ParseLocalesToTags(host.parse, config.locales).Success? && |config.path| > 0 ==>
      var loaded := load(config.path, ParseLocalesToTags(host.parse, config.locales).value);
      && (loaded.Success? <==> r.Success?)
      && (loaded.Success? ==> r.value.localizations == loaded.value)
      && (loaded.Failure? ==> r.error == LoadFailed(loaded.error))
    ensures ParseLocalesToTags(host.parse, config.locales).Success? && config.path == "" && config.locs.Some? ==>
      r.Success? && r.value.localizations == config.locs.value
    ensures ParseLocalesToTags(host.parse, config.locales).Success? && config.path == "" && config.locs.None? ==>
      r.Failure? && r.error == MissingSource
  {
    match ParseLocalesToTags(host.parse, config.locales)
    case Failure(i) => Failure(UnparseableLocale(i))
    case Success(tags) =>
      var inst := I18n(config, override, tags, host.newMatcher(tags), map[], host);
      if |config.path| > 0 then
        match load(config.path, tags)
        case Failure(e) => Failure(LoadFailed(e))
        case Success(table) => Success(inst.(localizations := table))
      else if config.locs.Some? then
        Success(inst.(localizations := config.locs.value))
      else
        Failure(MissingSource)
  }

  /** With a non-empty `path`, the hard-coded `locs` play no part: setup
      gives the same tags, tables and errors whatever they are. */
  lemma PathTakesPrecedence(config: Config, locs: Option<Table>, override: Option<Request -> string>, host: Host, load: Loader)
    requires |config.path| > 0
    ensures var a := SetupInstance(config, override, host, load);
      var b := SetupInstance(config.(locs := locs), override, host, load);
      && a.Success? == b.Success?
      && (a.Success? ==> a.value.tags == b.value.tags && a.value.localizations == b.value.localizations)
      && (a.Failure? ==> a.error == b.error)
  {
  }

  /** After a successful setup every request resolves to a configured
      locale: the canonical form of some entry of `locales`, or "en" when
      none is configured. */
  lemma ResolvedLocaleIsConfigured(config: Config, override: Option<Request -> string>, host: Host, load: Loader, r: Option<Request>)
    requires SetupInstance(config, override, host, load).Success?
    ensures var inst := SetupInstance(config, override, host, load).value;
      var locale := GetLocale(inst, r);
      && (config.locales == [] ==> locale == "en")
      && (config.locales != [] ==>
            exists i :: 0 <= i < |config.locales| && host.parse(config.locales[i]) == Some(Tag(locale)))
  {
  }
}

=== FILE: translate.dfy ===
/** Translation of a key, by explicit locale or from a request. */
module Translate {
  import opened Wrappers
  import opened Requests
  import opened Instance
  import opened Locale

  /** The template of an entry for the plurality asked for. */
  function Template(l: Localization, plural: bool): string
  {
    if plural then l.other else l.one
  }

  /** The table T reads: the locale's own when it is loaded, otherwise the
      default locale's, otherwise none at all (a nil map in Go). */
  function LocaleTable(inst: I18n, locale: string): map<string, Localization>
    requires Valid(inst)
  {
    if locale in inst.localizations then inst.localizations[locale]
    else if DefaultLocale(inst) in inst.localizations then inst.localizations[DefaultLocale(inst)]
    else map[]
  }

  /** T: the key rendered with the locale's template, falling back to the
      default locale's table when the locale is not loaded, and to the key
      itself when the chosen table lacks it. There is no per-key fallback:
      a loaded locale without the key yields the key even if the default
      table has it. */
  function T(inst: I18n, locale: string, plural: bool, key: string, params: seq<string>): (s: string)
    requires Valid(inst)
    ensures locale in inst.localizations && key in inst.localizations[locale] ==>
      s == inst.host.sprintf(Template(inst.localizations[locale][key], plural), params)
    ensures locale in inst.localizations && key !in inst.localizations[locale] ==> s == key
    ensures locale !in inst.localizations && DefaultLocale(inst) in inst.localizations
            && key in inst.localizations[DefaultLocale(inst)] ==>
      s == inst.host.sprintf(Template(inst.localizations[DefaultLocale(inst)][key], plural), params)
    ensures locale !in inst.localizations
            && (DefaultLocale(inst) !in inst.localizations || key !in inst.localizations[DefaultLocale(inst)]) ==>
      s == key
  {
    var language := LocaleTable(inst, locale);
    if key in language then inst.host.sprintf(Template(language[key], plural), params)
    else key
  }

  /** Translating with a locale that was never loaded is the same as
      translating with the default locale. */
  lemma UnloadedLocaleTranslatesAsDefault(inst: I18n, locale: string, plural: bool, key: string, params: seq<string>)
    requires Valid(inst)
    requires locale !in inst.localizations
    ensures T(inst, locale, plural, key, params) == T(inst, DefaultLocale(inst), plural, key, params)
  {
  }

  /** A key that no loaded table holds is returned as is, whatever the locale. */
  lemma UnknownKeyIsReturned(inst: I18n, locale: string, plural: bool, key: string, params: seq<string>)
    requires Valid(inst)
    requires forall l :: l in inst.localizations ==> key !in inst.localizations[l]
    ensures T(inst, locale, plural, key, params) == key
  {
  }

  /** The result of T is either the key or the rendering of one of the key's
      templates in some loaded table. */
  lemma TRendersSomeTemplateOrKey(inst: I18n, locale: string, plural: bool, key: string, params: seq<string>)
    requires Valid(inst)
    ensures var s := T(inst, locale, plural, key, params);
      || s == key
      || (exists l :: l in inst.localizations && key in inst.localizations[l]
            && s == inst.host.sprintf(Template(inst.localizations[l][key], plural), params))
  {
  }

  /** AutoT: a nil request yields the key untranslated; otherwise the key is
      translated in the request's resolved locale, which is always one of
      the configured tags. */
  function AutoT(inst: I18n, r: Option<Request>, plural: bool, key: string, params: seq<string>): (s: string)
    requires Valid(inst)
    ensures r.None? ==> s == key
    ensures r.Some? ==> s == T(inst, GetLocale(inst, r), plural, key, params)
    ensures r.Some? ==> exists i :: 0 <= i < |inst.tags| && s == T(inst, inst.tags[i].String(), plural, key, params)
  {
    match r
    case None => key
    case Some(_) =>
      var locale := GetLocale(inst, r);
      T(inst, locale, plural, key, params)
  }
}

=== FILE: wrappers.dfy ===
/** Wrappers used across the model: `Option` for Go's nil values and for
    `language.Parse`'s error, `Result` for Go's `error` returns. */
module Wrappers {

  datatype Option<+T> = None | Some(value: T)

  datatype Result<+R, +E> = Success(value: R) | Failure(error: E)
}
